=== FILE: README.md ===
# Echo file server — a Dafny model

Echo's `FileServer` component takes uploaded recordings and serves them back.

- **Upload.** `upload_file` resets the progress entry of the upload in the `uploaded_files` table. It then reads the incoming file `chunk_size` bytes at a time into a file under the local base directory, adding each chunk's size to the progress. When the file is complete, it is `put` on the shared Drive and deleted locally. The entry is then marked done with its total, and a metadata record (original path, display name, size, Drive path) is written beside the data. That record is also put on the Drive and deleted locally.
- **Download.** `download_file` serves the local copy of a file. When the local copy is missing, it fetches the file from the Drive first.
- **Paths.** Local paths are `os.path.join(base_dir, name)`. Drive keys are `os.path.join(last component of base_dir, name)`. The display name is `os.path.splitext(id)[0]`.

The model is made of three modules:

- `PosixPath` (`posix_path.dfy`) gives exact definitions of the POSIX behaviour of:
  - `str.rfind`;
  - `str.split('/')[-1]`;
  - two-argument `os.path.join`;
  - `os.path.splitext`, including the rule that a name made only of leading dots has no extension.
- `Streams` (`streams.dfy`) models:
  - the uploaded file as a byte stream whose `read(n)` follows a buffered stream (a negative `n` reads everything, `0` reads nothing, otherwise at most `n` bytes);
  - `ReadsOf`, the sequence of non-empty chunks the upload loop sees;
  - `RunningTotals`, the progress values visible while the loop runs.
- `FileService` (`fileserver.dfy`) models the server as a class `FileServer`:
  - the `uploaded_files` table, the local disk and the Drive are `map` fields that the methods reassign;
  - `upload_file` is a loop with invariants (`WriteChunks`) followed by the table, Drive and disk updates;
  - `Drive.put` and `Drive.get` are copies between the local map and the Drive map under the relative key.

Three behaviours of the code are worth stating up front:

- **A repeated upload of an id is not rejected.** The progress entry is reset silently, and `Begin` does the same.
- **The display name is `os.path.splitext(id)[0]`.** It splits only inside the last path component, and never at a dot preceded only by dots.
- **The record's `drive_path` is the id itself, not the Drive key.** `MetadataFor` stores it the same way.

## Model

| member | source | states |
|---|---|---|
| PosixPath.RFind | echo/components/fileserver.py:85 | the index of the last occurrence of a character, -1 exactly when it does not occur; nothing after it is that character |
| PosixPath.LastComponent | echo/components/fileserver.py:108 | the last `/`-component holds no separator and is no longer than the path |
| PosixPath.LemmaLastComponent | echo/components/fileserver.py:108 | the last component is exactly the characters after the last separator |
| PosixPath.LemmaLastComponentEmpty | echo/components/fileserver.py:108 | the last component is empty iff the path is empty or ends in a separator |
| PosixPath.LemmaLastComponentUnique | echo/components/fileserver.py:108 | a separator-free suffix that is the whole path or follows a separator is the last component |
| PosixPath.Join | echo/components/fileserver.py:110 | definition of two-argument `os.path.join`: an absolute `b` alone, otherwise `a`, then a separator only where `a` does not end in one, then `b`; its properties are stated by `LemmaJoin`, `LemmaJoinLastComponent`, `LemmaJoinInjective` and `LemmaJoinAppend` |
| PosixPath.LemmaJoin | echo/components/fileserver.py:110 | the joined path always ends with `b`, and starts with all of `a` unless `b` is absolute |
| PosixPath.LemmaJoinLastComponent | echo/components/fileserver.py:114 | joining a plain non-empty name onto any directory leaves that name as the last component |
| PosixPath.LemmaJoinAppend | echo/components/fileserver.py:82 | appending a suffix to the joined name appends it to the joined path, as long as the name stays relative or absolute (an empty name followed by an absolute suffix is excluded) |
| PosixPath.LemmaJoinInjective | echo/components/fileserver.py:110 | two relative (or two absolute) names joined onto one directory collide only if equal |
| PosixPath.LemmaJoinNameInjective | echo/components/fileserver.py:108-110 | onto a separator-free directory, any two distinct names give distinct paths |
| PosixPath.SplitExt | echo/components/fileserver.py:85 | definition of `os.path.splitext`: splits at the last dot when it comes after the last separator and something other than dots precedes it in that component, else `(p, "")`; its properties are stated by `LemmaSplitExt` and `LemmaSplitExtIff` |
| PosixPath.LemmaSplitExt | echo/components/fileserver.py:85 | `root + ext == path`, and `ext` is empty or a dot followed by neither dots nor separators |
| PosixPath.LemmaSplitExtFinds | echo/components/fileserver.py:85 | a dot after a non-dot in the last component makes `splitext` split |
| PosixPath.LemmaSplitExtFound | echo/components/fileserver.py:85 | when `splitext` splits, the last component has a dot after a non-dot |
| PosixPath.LemmaSplitExtIff | echo/components/fileserver.py:85 | `splitext` finds an extension iff the last component has a dot after a non-dot |
| PosixPath.LemmaSplitExtInLastComponent | echo/components/fileserver.py:85 | the extension never reaches past the last component, and is strictly shorter than it |
| PosixPath.LemmaSplitExtName | echo/components/fileserver.py:85 | a plain name (no separator) splits at its last dot when some character before that dot is not a dot (so `.a.b` gives `(".a", ".b")`), and is left whole when everything up to that dot is dots |
| PosixPath.LemmaSplitExtReport | echo/components/fileserver.py:85 | `splitext("report.csv") == ("report", ".csv")` |
| PosixPath.LemmaSplitExtReadme | echo/components/fileserver.py:85 | `splitext("README") == ("README", "")` |
| PosixPath.LemmaSplitExtBashrc | echo/components/fileserver.py:85 | `splitext(".bashrc") == (".bashrc", "")` |
| PosixPath.LemmaSplitExtDots | echo/components/fileserver.py:85 | `splitext("..x") == ("..x", "")` |
| Streams.Take | echo/components/fileserver.py:62 | `read(n)` returns a prefix of the unread bytes: all for negative `n`, else `min(n, remaining)` bytes |
| Streams.InputStream.Read | echo/components/fileserver.py:62 | a read consumes exactly the bytes it returns and logs the size requested |
| Streams.ReadsOf | echo/components/fileserver.py:62-69 | the chunks the loop body sees: successive `read(n)` results up to the first empty one, each of them non-empty |
| Streams.LemmaReadsConcat | echo/components/fileserver.py:62-69 | with a non-zero chunk size the chunks read, concatenated, are the whole stream |
| Streams.LemmaReadsCount | echo/components/fileserver.py:62-69 | with a positive chunk size the loop body runs `ceil(N / chunk_size)` times |
| Streams.LemmaReadsSizes | echo/components/fileserver.py:62-69 | every chunk holds at most `chunk_size` bytes and all but the last are full |
| Streams.LemmaReadsUnbounded | echo/components/fileserver.py:62 | a negative size reads the stream in one chunk; size zero reads none |
| Streams.LemmaReadsStep | echo/components/fileserver.py:69 | a non-empty read is the first chunk of the remaining chunk sequence |
| Streams.LemmaReadsDone | echo/components/fileserver.py:63 | an empty read means no chunks remain |
| Streams.LemmaReadsAdvance | echo/components/fileserver.py:63-69 | one more iteration moves a chunk from "to come" to "read" and extends the byte total and progress log |
| Streams.LemmaConcatAppend | echo/components/fileserver.py:64 | writing one more chunk appends it to the file contents |
| Streams.LemmaRunningTotals | echo/components/fileserver.py:65-68 | progress starts at 0, ends at the bytes written, grows by each chunk's size and never decreases |
| FileService.MetadataFor | echo/components/fileserver.py:83-88 | definition of the `meta` record: original path and Drive path both the id, display name `splitext(id)[0]`, the given size |
| FileService.DisplayName | echo/components/fileserver.py:85 | the display name is a prefix of the id, equal to it iff the id's last component has no extension |
| FileService.LemmaDisplayNameDropsExtension | echo/components/fileserver.py:85 | what the display name drops is empty or a dot followed by neither dots nor separators |
| FileService.FileServer.constructor | echo/components/fileserver.py:26-32 | the server starts with the given Drive, base directory and chunk size (10240 by default) and an empty table |
| FileService.FileServer.FilePath | echo/components/fileserver.py:112-114 | definition of `get_filepath`: `os.path.join(base_dir, path)`; its properties are stated by `LemmaFilePath` |
| FileService.FileServer.DriveFilePath | echo/components/fileserver.py:105-110 | definition of `get_drive_filepath`: `os.path.join` of the last `/`-component of `base_dir` and the id; its properties are stated by `LemmaDriveFilePath` |
| FileService.FileServer.LemmaFilePath | echo/components/fileserver.py:112-114 | a relative name lies under the base directory; a plain name (non-empty, no separator) is the last component of its path; an absolute name ignores the base directory |
| FileService.FileServer.LemmaDriveFilePath | echo/components/fileserver.py:105-110 | the Drive key is `lastComponent(base_dir) + "/" + id`, or `id` itself when that component is empty or `id` is absolute |
| FileService.FileServer.LemmaDriveFilePathInjective | echo/components/fileserver.py:105-110 | distinct ids never share a Drive key |
| FileService.FileServer.LemmaMetaPathsDistinct | echo/components/fileserver.py:82 | the metadata file's local path and Drive key are the data file's plus `.meta`, hence distinct from them |
| FileService.FileServer.Begin | echo/components/fileserver.py:58 | starting an upload overwrites any earlier entry of the id with progress `(0, None)`, not done |
| FileService.FileServer.Advance | echo/components/fileserver.py:65-68 | progress grows by the chunk size, its total stays `None`, other entries unchanged |
| FileService.FileServer.Complete | echo/components/fileserver.py:74-79 | the entry becomes `(n, n)`, done, `uploaded_file = id`, where `n` is the progress so far |
| FileService.FileServer.PutAndRemove | echo/components/fileserver.py:71-72 | the Drive key receives the local object, the local file is gone, nothing else changes |
| FileService.FileServer.GetFromDrive | echo/components/fileserver.py:101 | the local path receives the Drive object when the Drive has one |
| FileService.FileServer.WriteChunk | echo/components/fileserver.py:64-68 | one iteration appends the chunk to the local file and adds its size to the progress |
| FileService.FileServer.WriteChunks | echo/components/fileserver.py:61-69 | the local file holds the concatenation of the chunks read, progress equals its size, every request asks for `chunk_size`, the progress seen is the running totals; the stream is drained, except that a chunk size of 0 reads nothing and leaves it untouched |
| FileService.FileServer.Upload | echo/components/fileserver.py:56-95 | entry `(n, n)` done; both local files gone; the Drive holds exactly the bytes read and the metadata under their keys and nothing else changes; the metadata is `(id, splitext(id)[0], n, id)`; the stream is drained, or untouched for chunk size 0 |
| FileService.FileServer.PublishMetadata | echo/components/fileserver.py:81-93 | the metadata record is built from the id and size, put under the `.meta` Drive key and removed locally |
| FileService.FileServer.Download | echo/components/fileserver.py:97-103 | an existing local file is served unchanged; otherwise it is fetched from the Drive and kept; a Drive miss is an error |
| FileService.UploadThenDownload | echo/components/fileserver.py:56-103 | downloading right after uploading returns exactly the uploaded bytes |
| FileService.UploadsIndependent | echo/components/fileserver.py:56-103 | a second upload under a name `id2` with `id2 != id1` and `id1 != id2 + ".meta"` (the first name is not the second's metadata file name) leaves the first's bytes downloadable: the download returns exactly the chunks read from the first stream, for every chunk size, which is the whole stream for a non-zero chunk size |
| FileService.MetaNameShadowsUpload | echo/components/fileserver.py:82-93 | uploading `id` overwrites an earlier upload named `id.meta` with the metadata record of `id` |

## Left out

- Flask routing, `run`, CORS and the HTTP response built by `send_file` (`echo/components/fileserver.py:34-50`, `103`). `Download` returns the stored object instead.
- `alive` (`echo/components/fileserver.py:52-54`) is runtime scaffolding and is not modelled.
- The `LightningWork`/`BuildConfig` setup (`echo/components/fileserver.py:20-24`) is not modelled. This includes `parallel=True`, so concurrent access to the table and to the disk is not modelled either.
- The behaviour of `lightning_app.storage.Drive` is not modelled: the network, `SameFileError` and resolution relative to the working directory. `put` and `get` are copies between `local[FilePath(name)]` and `drive[DriveFilePath(name)]`, and `put` overwrites.
- The JSON text of the metadata file (`echo/components/fileserver.py:90`) is not modelled. The record is a `Metadata` value.
- `os.makedirs` and all I/O failures are not modelled (`echo/components/fileserver.py:30`, `61`, `89`). The disk map starts as given.
- Short reads are not modelled. Every `read(n)` returns `min(n, remaining)` bytes, as a buffered in-memory stream does. A `chunk_size` of `None` behaves like a negative size.
- Only the POSIX path rules are modelled: `os.sep` is `/` and `os.path` is `posixpath`.
- Default arguments: the chunk size defaults to 10240 as in `echo/components/fileserver.py:12`, but `base_dir` must be given. Its default `None` would make `os.makedirs` fail at construction, and that failure is not modelled.
- Python integers are unbounded, and so are the model's `int` and `nat`.
- `Streams.InputStream.Read`: the request log is a ghost field. It records what `upload_file` asks for and does not exist at run time.

=== FILE: fileserver.dfy ===
/** The file server of Echo: a chunked upload that tracks its progress in a table, stages
    the bytes in a local directory, pushes them to a shared Drive with a metadata record
    beside them and purges the local copies; and a download that serves the local copy,
    fetching it from the Drive first when it is missing. The local disk and the Drive are
    maps from path to stored object. */
module FileService {
  import opened PosixPath
  import opened Streams

  datatype Option<T> = None | Some(value: T)

  /** The metadata record stored next to every upload. */
  datatype Metadata = Metadata(originalPath: string, displayName: string, size: nat, drivePath: string)

  /** A stored object: raw uploaded bytes, or a metadata record (its JSON text is not modelled). */
  datatype Blob = Bytes(data: seq<byte>) | Record(meta: Metadata)

  /** One entry of the `uploaded_files` table: progress as (bytes written, total size),
      the done flag and, once done, the name of the uploaded file. */
  datatype UploadEntry = UploadEntry(progress: (nat, Option<nat>), done: bool, uploadedFile: Option<string>)

  datatype Error = NotFound(key: string)

  datatype Result<T> = Ok(value: T) | Err(error: Error)

  const DefaultChunkSize: int := 10240
  const MetaSuffix: string := ".meta"

  /** Overwriting a key twice keeps only the second value. */
  lemma LemmaUpdateTwice<K, V>(m: map<K, V>, k: K, a: V, b: V)
    ensures m[k := a][k := b] == m[k := b]
  {
  }

  /** Two updates at other keys leave the entry of `k` as it was. */
  lemma LemmaUpdatesElsewhere<K, V>(m: map<K, V>, k: K, p: K, a: V, q: K, b: V)
    requires k != p && k != q
    ensures k in m[p := a][q := b] <==> k in m
    ensures k in m ==> m[p := a][q := b][k] == m[k]
  {
  }

  /** Removing a key forgets any value just stored under it. */
  lemma LemmaRemoveUpdated<K, V>(m: map<K, V>, k: K, v: V)
    ensures m[k := v] - {k} == m - {k}
  {
  }

  /** Removing two keys one after the other removes both. */
  lemma LemmaRemoveTwo<K, V>(m: map<K, V>, p: K, q: K)
    ensures m - {p} - {q} == m - {p, q}
  {
  }

  /** The name of the metadata file of upload `id`. */
  function MetaName(id: string): string {
    id + MetaSuffix
  }

  /** An entry while bytes are still being written: `n` so far, total unknown. */
  function InProgress(n: nat): UploadEntry {
    UploadEntry((n, None), false, None)
  }

  /** The entry of a finished upload of `n` bytes. */
  function Completed(id: string, n: nat): UploadEntry {
    UploadEntry((n, Some(n)), true, Some(id))
  }

  /** The shape every entry of the table has: in progress with no total, or done with the
      total equal to the bytes written and the file name recorded. */
  predicate EntryValid(id: string, e: UploadEntry) {
    if e.done then e.progress.1 == Some(e.progress.0) && e.uploadedFile == Some(id)
    else e.progress.1 == None && e.uploadedFile == None
  }

  /** The name shown for an upload: `os.path.splitext(id)[0]`. */
  function DisplayName(id: string): (name: string)
    ensures |name| <= |id| && id[..|name|] == name
    ensures name == id <==> !HasExtension(LastComponent(id))
  {
    LemmaSplitExt(id);
    LemmaSplitExtIff(id);
    SplitExt(id).0
  }

  /** What the display name leaves off is an extension: empty, or a dot followed by
      characters that are neither dots nor separators. */
  lemma LemmaDisplayNameDropsExtension(id: string)
    ensures IsExtension(id[|DisplayName(id)|..])
  {
    LemmaSplitExt(id);
    assert id[|DisplayName(id)|..] == SplitExt(id).1;
  }

  /** The metadata record of an upload of `size` bytes under `id`. */
  function MetadataFor(id: string, size: nat): Metadata {
    Metadata(id, DisplayName(id), size, id)
  }

  class FileServer {
    const baseDir: string
    const chunkSize: int
    var uploadedFiles: map<string, UploadEntry>
    /** The local file system, by path. */
    var local: map<string, Blob>
    /** The shared Drive, by relative key. */
    var drive: map<string, Blob>

    ghost predicate Valid()
      reads this
    {
      forall id | id in uploadedFiles :: EntryValid(id, uploadedFiles[id])
    }

    /** `os.makedirs` is not modelled: `local` is whatever the disk already holds. The chunk
        size defaults to 10240 bytes, the default of `FileServer.__init__`. */
    constructor (drive: map<string, Blob>, baseDir: string, local: map<string, Blob>, chunkSize: int := DefaultChunkSize)
      ensures Valid()
      ensures this.drive == drive && this.baseDir == baseDir && this.chunkSize == chunkSize
      ensures this.local == local && uploadedFiles == map[]
    {
      this.drive := drive;
      this.baseDir := baseDir;
      this.chunkSize := chunkSize;
      this.local := local;
      uploadedFiles := map[];
    }

    /** `get_filepath`: where `path` lives on the local disk. */
    function FilePath(path: string): string {
      Join(baseDir, path)
    }

    /** `get_drive_filepath`: the Drive key of `id`, under the last component of the base
        directory. */
    function DriveFilePath(id: string): string {
      Join(LastComponent(baseDir), id)
    }

    /** A relative path lies under the base directory; a plain name (non-empty, no
        separator) is the last component of its path; an absolute path ignores the base
        directory. */
    lemma LemmaFilePath(path: string)
      ensures IsAbsolute(path) ==> FilePath(path) == path
      ensures !IsAbsolute(path) ==> |baseDir| <= |FilePath(path)| && FilePath(path)[..|baseDir|] == baseDir
      ensures path != [] && Sep !in path ==> LastComponent(FilePath(path)) == path
    {
      if path != [] && Sep !in path {
        LemmaJoinLastComponent(baseDir, path);
      }
    }

    /** A base directory ending in a separator has an empty last component, and the key is
        then `id` itself; an absolute `id` is its own key; otherwise the key is `id` under
        the base directory's last component. */
    lemma LemmaDriveFilePath(id: string)
      ensures LastComponent(baseDir) == [] ==> DriveFilePath(id) == id
      ensures IsAbsolute(id) ==> DriveFilePath(id) == id
      ensures !IsAbsolute(id) && LastComponent(baseDir) != [] ==>
        DriveFilePath(id) == LastComponent(baseDir) + [Sep] + id
      ensures id != [] && Sep !in id ==> LastComponent(DriveFilePath(id)) == id
    {
      if id != [] && Sep !in id {
        LemmaJoinLastComponent(LastComponent(baseDir), id);
      }
    }

    /** Distinct names never share a Drive key. */
    lemma LemmaDriveFilePathInjective(a: string, b: string)
      requires DriveFilePath(a) == DriveFilePath(b)
      ensures a == b
    {
      LemmaJoinNameInjective(LastComponent(baseDir), a, b);
    }

    /** A name and its metadata file never share a local path or a Drive key. */
    lemma LemmaMetaPathsDistinct(id: string)
      ensures FilePath(MetaName(id)) == FilePath(id) + MetaSuffix
      ensures DriveFilePath(MetaName(id)) == DriveFilePath(id) + MetaSuffix
      ensures FilePath(MetaName(id)) != FilePath(id)
      ensures DriveFilePath(MetaName(id)) != DriveFilePath(id)
    {
      LemmaJoinAppend(baseDir, id, MetaSuffix);
      LemmaJoinAppend(LastComponent(baseDir), id, MetaSuffix);
    }

    /** Starting an upload resets the entry of `id`, whatever was there before. */
    method Begin(id: string)
      requires Valid()
      modifies this`uploadedFiles
      ensures Valid()
      ensures uploadedFiles == old(uploadedFiles)[id := InProgress(0)]
    {
      uploadedFiles := uploadedFiles[id := UploadEntry((0, None), false, None)];
    }

    /** Adds the size of a written chunk to the progress of `id`; the total stays unknown. */
    method Advance(id: string, size: nat)
      requires Valid() && id in uploadedFiles && !uploadedFiles[id].done
      modifies this`uploadedFiles
      ensures Valid()
      ensures uploadedFiles == old(uploadedFiles)[id := InProgress(old(uploadedFiles)[id].progress.0 + size)]
    {
      var entry := uploadedFiles[id];
      uploadedFiles := uploadedFiles[id := entry.(progress := (entry.progress.0 + size, None))];
    }

    /** Marks `id` done with its total equal to the bytes written. */
    method Complete(id: string) returns (fullSize: nat)
      requires Valid() && id in uploadedFiles
      modifies this`uploadedFiles
      ensures Valid()
      ensures fullSize == old(uploadedFiles)[id].progress.0
      ensures uploadedFiles == old(uploadedFiles)[id := Completed(id, fullSize)]
    {
      fullSize := uploadedFiles[id].progress.0;
      uploadedFiles := uploadedFiles[id := UploadEntry((fullSize, Some(fullSize)), true, Some(id))];
    }

    /** `Drive.put` of the local file of `name` to its Drive key, then `os.remove` of the
        local file. */
    method PutAndRemove(name: string)
      requires FilePath(name) in local
      modifies this`drive, this`local
      ensures drive == old(drive)[DriveFilePath(name) := old(local)[FilePath(name)]]
      ensures local == old(local) - {FilePath(name)}
    {
      drive := drive[DriveFilePath(name) := local[FilePath(name)]];
      local := local - {FilePath(name)};
    }

    /** `Drive.get`: copies the Drive object of `name` to its local path, if there is one. */
    method GetFromDrive(name: string) returns (found: bool)
      modifies this`local
      ensures found == (DriveFilePath(name) in drive)
      ensures local == if found then old(local)[FilePath(name) := drive[DriveFilePath(name)]] else old(local)
    {
      found := DriveFilePath(name) in drive;
      if found {
        local := local[FilePath(name) := drive[DriveFilePath(name)]];
      }
    }

    /** One turn of the upload loop: `out_file.write(content)` appends the chunk to the
        local file at `path`, and the progress of `id` grows by the bytes written. The
        tables are stated relative to `files0` and `local0`, their contents before the
        file was created. */
    method WriteChunk(id: string, path: string, content: seq<byte>, ghost written: seq<byte>,
                      ghost files0: map<string, UploadEntry>, ghost local0: map<string, Blob>)
      requires Valid() && uploadedFiles == files0[id := InProgress(|written|)]
      requires local == local0[path := Bytes(written)]
      modifies this`uploadedFiles, this`local
      ensures Valid()
      ensures uploadedFiles == files0[id := InProgress(|written + content|)]
      ensures local == local0[path := Bytes(written + content)]
    {
      local := local[path := Bytes(local[path].data + content)];
      var size := |content|;
      Advance(id, size);
    }

    /** The `with open(...)` block of `upload_file`: creates the local file of `id` empty,
        then reads `file` in requests of `chunkSize` bytes until a read comes back empty,
        appending each chunk to the file and adding its size to the progress of `id`.
        `chunks` are the chunks read; `progressSeen` the progress values the table shows. */
    method WriteChunks(id: string, file: InputStream) returns (ghost chunks: seq<seq<byte>>, ghost progressSeen: seq<nat>)
      requires Valid()
      requires id in uploadedFiles && uploadedFiles[id] == InProgress(0)
      modifies this`uploadedFiles, this`local, file
      ensures Valid()
      ensures chunks == ReadsOf(old(file.rest), chunkSize)
      ensures uploadedFiles == old(uploadedFiles)[id := InProgress(|Concat(chunks)|)]
      ensures local == old(local)[FilePath(id) := Bytes(Concat(chunks))]
      ensures file.requests == old(file.requests) + Repeat(chunkSize, |chunks| + 1)
      ensures progressSeen == RunningTotals(chunks)
      ensures file.rest == if chunkSize == 0 then old(file.rest) else []
    {
      var path := FilePath(id);
      local := local[path := Bytes([])];
      ghost var rest := file.rest;
      ghost var reqs := file.requests;
      ghost var written: seq<byte> := [];
      chunks := [];
      progressSeen := [0];
      var content := file.Read(chunkSize);
      while content != []
        invariant Valid()
        invariant content == Take(content + file.rest, chunkSize)
        invariant ReadsOf(rest, chunkSize) == chunks + ReadsOf(content + file.rest, chunkSize)
        invariant written == Concat(chunks)
        invariant uploadedFiles == old(uploadedFiles)[id := InProgress(|written|)]
        invariant local == old(local)[path := Bytes(written)]
        invariant file.requests == reqs + Repeat(chunkSize, |chunks| + 1)
        invariant progressSeen == RunningTotals(chunks)
        invariant chunkSize == 0 ==> file.rest == rest
        decreases |content| + |file.rest|
      {
        WriteChunk(id, path, content, written, old(uploadedFiles), old(local));
        LemmaReadsAdvance(ReadsOf(rest, chunkSize), chunks, content, file.rest, chunkSize);
        written := written + content;
        chunks := chunks + [content];
        progressSeen := progressSeen + [uploadedFiles[id].progress.0];
        content := file.Read(chunkSize);
        LemmaRepeatStep(reqs, chunkSize, |chunks|);
      }
      LemmaReadsDone(file.rest, chunkSize);
    }

    /** `upload_file`: resets the entry of `id`, streams `file` into the local file of
        `id`, puts it on the Drive, deletes it locally and marks the entry done with the
        byte count as total; then writes the metadata record, puts it on the Drive and
        deletes it locally. `chunks` are the chunks read from `file`; `progressSeen` the
        progress values the table shows for `id` along the way. */
    method Upload(id: string, file: InputStream)
      returns (meta: Metadata, ghost chunks: seq<seq<byte>>, ghost progressSeen: seq<nat>)
      requires Valid()
      modifies this, file
      ensures Valid()
      ensures chunks == ReadsOf(old(file.rest), chunkSize)
      ensures uploadedFiles == old(uploadedFiles)[id := Completed(id, |Concat(chunks)|)]
      ensures meta == MetadataFor(id, |Concat(chunks)|)
      ensures local == old(local) - {FilePath(id), FilePath(MetaName(id))}
      ensures drive == old(drive)[DriveFilePath(id) := Bytes(Concat(chunks))][DriveFilePath(MetaName(id)) := Record(meta)]
      ensures file.requests == old(file.requests) + Repeat(chunkSize, |chunks| + 1)
      ensures progressSeen == RunningTotals(chunks)
      ensures chunkSize != 0 ==> Concat(chunks) == old(file.rest) && file.rest == []
      ensures chunkSize == 0 ==> file.rest == old(file.rest)
    {
      Begin(id);
      chunks, progressSeen := WriteChunks(id, file);
      ghost var n := |Concat(chunks)|;
      LemmaUpdateTwice(old(uploadedFiles), id, InProgress(0), InProgress(n));
      LemmaRemoveUpdated(old(local), FilePath(id), Bytes(Concat(chunks)));
      PutAndRemove(id);
      var fullSize := Complete(id);
      LemmaUpdateTwice(old(uploadedFiles), id, InProgress(n), Completed(id, n));
      meta := PublishMetadata(id, fullSize);
      LemmaRemoveTwo(old(local), FilePath(id), FilePath(MetaName(id)));
      if chunkSize != 0 {
        LemmaReadsConcat(old(file.rest), chunkSize);
      }
    }

    /** The metadata part of `upload_file`: writes the record of an upload of `fullSize`
        bytes under `id` to the local metadata file, puts that on the Drive and deletes it
        locally. */
    method PublishMetadata(id: string, fullSize: nat) returns (meta: Metadata)
      modifies this`local, this`drive
      ensures meta == MetadataFor(id, fullSize)
      ensures local == old(local) - {FilePath(MetaName(id))}
      ensures drive == old(drive)[DriveFilePath(MetaName(id)) := Record(meta)]
    {
      var metaFile := id + MetaSuffix;
      meta := Metadata(id, DisplayName(id), fullSize, id);
      local := local[FilePath(metaFile) := Record(meta)];
      PutAndRemove(metaFile);
    }

    /** `download_file`: serves the local file of `id`; when it is missing, first fetches
        it from the Drive, and fails only when the Drive does not have it either. The
        local copy is kept after serving. */
    method Download(id: string) returns (r: Result<Blob>)
      requires Valid()
      modifies this`local
      ensures Valid()
      ensures FilePath(id) in old(local) ==> local == old(local) && r == Ok(local[FilePath(id)])
      ensures FilePath(id) !in old(local) && DriveFilePath(id) in drive ==>
        local == old(local)[FilePath(id) := drive[DriveFilePath(id)]] && r == Ok(drive[DriveFilePath(id)])
      ensures FilePath(id) !in old(local) && DriveFilePath(id) !in drive ==>
        local == old(local) && r == Err(NotFound(DriveFilePath(id)))
      ensures r.Ok? ==> FilePath(id) in local && local[FilePath(id)] == r.value
    {
      var filepath := FilePath(id);
      if filepath !in local {
        var found := GetFromDrive(id);
        if !found {
          return Err(NotFound(DriveFilePath(id)));
        }
      }
      r := Ok(local[filepath]);
    }
  }

  /** Uploading bytes under `id` and then downloading `id` gives back exactly those bytes:
      the upload leaves no local copy, so the download fetches it from the Drive. */
  method UploadThenDownload(server: FileServer, id: string, file: InputStream) returns (r: Result<Blob>)
    requires server.Valid()
    modifies server, file
    ensures server.Valid()
    ensures r == Ok(Bytes(Concat(ReadsOf(old(file.rest), server.chunkSize))))
    ensures server.chunkSize != 0 ==> r == Ok(Bytes(old(file.rest)))
  {
    var meta, _, _ := server.Upload(id, file);
    r := server.Download(id);
  }

  /** A second upload under another name leaves the first one's bytes downloadable, unless
      the first name is the second one's metadata file name. */
  method UploadsIndependent(server: FileServer, id1: string, file1: InputStream, id2: string, file2: InputStream)
    returns (r: Result<Blob>)
    requires server.Valid() && file1 != file2
    requires id1 != id2 && id1 != MetaName(id2)
    modifies server, file1, file2
    ensures server.Valid()
    ensures r == Ok(Bytes(Concat(ReadsOf(old(file1.rest), server.chunkSize))))
    ensures server.chunkSize != 0 ==> r == Ok(Bytes(old(file1.rest)))
  {
    ghost var key1 := server.DriveFilePath(id1);
    if key1 == server.DriveFilePath(id2) {
      server.LemmaDriveFilePathInjective(id1, id2);
    }
    if key1 == server.DriveFilePath(MetaName(id2)) {
      server.LemmaDriveFilePathInjective(id1, MetaName(id2));
    }
    ghost var key2, metaKey2 := server.DriveFilePath(id2), server.DriveFilePath(MetaName(id2));
    assert key1 != key2 && key1 != metaKey2;
    var meta1, _, _ := server.Upload(id1, file1);
    ghost var stored := server.drive[key1];
    assert server.chunkSize != 0 ==> stored == Bytes(old(file1.rest));
    ghost var drive1 := server.drive;
    var meta2, chunks2, _ := server.Upload(id2, file2);
    LemmaUpdatesElsewhere(drive1, key1, key2, Bytes(Concat(chunks2)), metaKey2, Record(meta2));
    assert server.FilePath(id1) !in server.local;
    r := server.Download(id1);
  }

  /** The metadata file of an upload overwrites an earlier upload stored under that same
      name: after uploading `id + ".meta"` and then `id`, downloading `id + ".meta"`
      gives the metadata record of `id`, not the bytes uploaded under that name. */
  method MetaNameShadowsUpload(server: FileServer, id: string, file1: InputStream, file2: InputStream)
    returns (r: Result<Blob>)
    requires server.Valid() && file1 != file2
    modifies server, file1, file2
    ensures server.Valid()
    ensures r == Ok(Record(MetadataFor(id, |Concat(ReadsOf(old(file2.rest), server.chunkSize))|)))
  {
    var meta1, _, _ := server.Upload(MetaName(id), file1);
    var meta2, _, _ := server.Upload(id, file2);
    r := server.Download(MetaName(id));
  }
}

=== FILE: posix_path.dfy ===
/** The pieces of Python's POSIX path handling that the file server relies on:
    `str.rfind`, `str.split(os.sep)[-1]`, `os.path.join` with two arguments and
    `os.path.splitext`. Paths are plain strings; `/` is the separator and `.` the
    extension separator, as on POSIX. */
module PosixPath {

  const Sep: char := '/'
  const ExtSep: char := '.'

  /** A path is absolute when it starts with the separator. */
  predicate IsAbsolute(p: string) {
    |p| > 0 && p[0] == Sep
  }

  predicate EndsWithSep(p: string) {
    |p| > 0 && p[|p| - 1] == Sep
  }

  /** `s.rfind(c)`: the index of the last occurrence of `c` in `s`, or -1. */
  function RFind(s: string, c: char): (i: int)
    ensures -1 <= i < |s|
    ensures i >= 0 ==> s[i] == c
    ensures forall j :: i < j < |s| ==> s[j] != c
    ensures i == -1 <==> c !in s
    decreases |s|
  {
    if s == [] then -1
    else if s[|s| - 1] == c then |s| - 1
    else RFind(s[..|s| - 1], c)
  }

  /** `s.split(os.sep)[-1]`: the characters after the last separator, or all of `s`. */
  function LastComponent(s: string): (r: string)
    ensures Sep !in r
    ensures |r| <= |s|
  {
    if s == [] || s[|s| - 1] == Sep then [] else LastComponent(s[..|s| - 1]) + [s[|s| - 1]]
  }

  /** The last component is the suffix after the last separator found by `rfind`:
      its length is what follows that index, and its characters are those of `s` there. */
  lemma {:induction false} LemmaLastComponent(s: string)
    ensures |LastComponent(s)| == |s| - 1 - RFind(s, Sep)
    ensures forall k :: 0 <= k < |LastComponent(s)| ==> LastComponent(s)[k] == s[RFind(s, Sep) + 1 + k]
    decreases |s|
  {
    if s != [] && s[|s| - 1] != Sep {
      var init := s[..|s| - 1];
      LemmaLastComponent(init);
      assert RFind(s, Sep) == RFind(init, Sep);
    }
  }

  /** The last component is empty exactly when the path is empty or ends in a separator. */
  lemma LemmaLastComponentEmpty(s: string)
    ensures LastComponent(s) == [] <==> s == [] || EndsWithSep(s)
  {
  }

  /** The last component is determined by its three defining properties: it holds no
      separator, it is a suffix, and it is either all of `s` or preceded by a separator. */
  lemma LemmaLastComponentUnique(s: string, r: string)
    requires Sep !in r && |r| <= |s| && r == s[|s| - |r|..]
    requires |r| < |s| ==> s[|s| - |r| - 1] == Sep
    ensures LastComponent(s) == r
  {
    LemmaLastComponent(s);
  }

  /** What `os.path.join(a, b)` puts between `a` and a relative `b`: a separator
      unless `a` is empty or already ends in one. */
  function Glue(a: string): string {
    if a == [] || EndsWithSep(a) then [] else [Sep]
  }

  /** `os.path.join(a, b)` (posixpath): an absolute `b` discards `a`; otherwise `b` is
      appended to `a`, with one separator inserted only where `a` lacks one. */
  function Join(a: string, b: string): string {
    if IsAbsolute(b) then b else a + Glue(a) + b
  }

  /** The joined path always ends with `b`, and starts with all of `a` unless `b` is
      absolute. */
  lemma LemmaJoin(a: string, b: string)
    ensures |b| <= |Join(a, b)| && Join(a, b)[|Join(a, b)| - |b|..] == b
    ensures !IsAbsolute(b) ==> |a| <= |Join(a, b)| && Join(a, b)[..|a|] == a
  {
  }

  /** Joining a plain name (non-empty, no separator) onto any directory leaves that name
      as the last component of the result. */
  lemma LemmaJoinLastComponent(a: string, b: string)
    requires b != [] && Sep !in b
    ensures LastComponent(Join(a, b)) == b
  {
    var r := Join(a, b);
    assert !IsAbsolute(b);
    if |b| < |r| {
      assert r[|r| - |b| - 1] == (a + Glue(a))[|a + Glue(a)| - 1];
    }
    LemmaLastComponentUnique(r, b);
  }

  /** Appending text to the joined name appends it to the joined path, as long as the
      name stays absolute or relative. */
  lemma LemmaJoinAppend(a: string, b: string, s: string)
    requires b != [] || !IsAbsolute(s)
    ensures Join(a, b + s) == Join(a, b) + s
  {
    var g := a + Glue(a);
    if b == [] {
      assert b + s == s && g + b == g;
      assert Join(a, s) == g + s;
    } else if IsAbsolute(b) {
      assert (b + s)[0] == b[0];
      assert Join(a, b + s) == b + s;
    } else {
      assert (b + s)[0] == b[0];
      assert Join(a, b + s) == g + (b + s);
      assert g + (b + s) == (g + b) + s;
    }
  }

  /** Two names of the same kind (both relative or both absolute) joined onto the same
      directory give the same path only if they are the same name. */
  lemma LemmaJoinInjective(a: string, b1: string, b2: string)
    requires IsAbsolute(b1) == IsAbsolute(b2)
    requires Join(a, b1) == Join(a, b2)
    ensures b1 == b2
  {
    if !IsAbsolute(b1) {
      var g := a + Glue(a);
      assert b1 == Join(a, b1)[|g|..];
    }
  }

  /** Joined onto a single directory name (no separator in it), distinct names, absolute
      or relative, always give distinct paths. */
  lemma LemmaJoinNameInjective(dir: string, b1: string, b2: string)
    requires Sep !in dir
    requires Join(dir, b1) == Join(dir, b2)
    ensures b1 == b2
  {
    if IsAbsolute(b1) == IsAbsolute(b2) {
      LemmaJoinInjective(dir, b1, b2);
    }
  }

  /** The extension shape: empty, or a dot followed by text with no further dot and
      no separator. */
  predicate IsExtension(e: string) {
    e == [] || (e[0] == ExtSep && ExtSep !in e[1..] && Sep !in e)
  }

  /** The characters of `p` from `lo` up to `hi` are all dots (vacuously true when the
      range is empty). */
  predicate AllDots(p: string, lo: int, hi: int) {
    forall k :: lo <= k < hi && 0 <= k < |p| ==> p[k] == ExtSep
  }

  /** `os.path.splitext(p)` (posixpath): split at the last dot of the last component,
      unless everything before that dot in the component is dots. */
  function SplitExt(p: string): (string, string) {
    var sepIndex := RFind(p, Sep);
    var dotIndex := RFind(p, ExtSep);
    if dotIndex > sepIndex && !AllDots(p, sepIndex + 1, dotIndex) then
      (p[..dotIndex], p[dotIndex..])
    else
      (p, [])
  }

  /** The two parts of `splitext` put back together give the path, and the second part
      has the shape of an extension. */
  lemma LemmaSplitExt(p: string)
    ensures SplitExt(p).0 + SplitExt(p).1 == p
    ensures IsExtension(SplitExt(p).1)
  {
    var d := RFind(p, ExtSep);
    if SplitExt(p).1 != [] {
      assert p[..d] + p[d..] == p;
    }
  }

  /** A component has an extension when some dot in it comes after a character that
      is not a dot. */
  predicate HasExtension(b: string) {
    exists i, j :: 0 <= j < i < |b| && b[i] == ExtSep && b[j] != ExtSep
  }

  /** A dot of the last component that follows a character other than a dot makes
      `splitext` split. */
  lemma LemmaSplitExtFinds(p: string, i: int, j: int)
    requires 0 <= j < i < |LastComponent(p)|
    requires LastComponent(p)[i] == ExtSep && LastComponent(p)[j] != ExtSep
    ensures SplitExt(p).1 != []
  {
    var s := RFind(p, Sep);
    LemmaLastComponent(p);
    assert p[s + 1 + i] == ExtSep;
    assert p[s + 1 + j] != ExtSep;
  }

  /** When `splitext` splits, the last component has a dot after a non-dot. */
  lemma LemmaSplitExtFound(p: string)
    requires SplitExt(p).1 != []
    ensures HasExtension(LastComponent(p))
  {
    var s := RFind(p, Sep);
    var d := RFind(p, ExtSep);
    var b := LastComponent(p);
    LemmaLastComponent(p);
    var k :| s + 1 <= k < d && 0 <= k < |p| && p[k] != ExtSep;
    assert b[d - s - 1] == ExtSep && b[k - s - 1] != ExtSep;
  }

  /** `splitext` finds an extension exactly when the last component has one. */
  lemma LemmaSplitExtIff(p: string)
    ensures SplitExt(p).1 != [] <==> HasExtension(LastComponent(p))
  {
    if SplitExt(p).1 != [] {
      LemmaSplitExtFound(p);
    }
    var b := LastComponent(p);
    if HasExtension(b) {
      var i, j :| 0 <= j < i < |b| && b[i] == ExtSep && b[j] != ExtSep;
      LemmaSplitExtFinds(p, i, j);
    }
  }

  /** A non-empty extension is the part of the last component from its last dot on. */
  lemma LemmaSplitExtInLastComponent(p: string)
    ensures |SplitExt(p).1| <= |LastComponent(p)|
    ensures SplitExt(p).1 != [] ==> |SplitExt(p).1| < |LastComponent(p)|
  {
    LemmaLastComponent(p);
    LemmaSplitExt(p);
  }

  /** How `splitext` treats a plain name whose dot positions are known. The first
      ensures is a shortcut form of the second for callers that know the name does not
      start with a dot. */
  lemma LemmaSplitExtName(p: string, d: int)
    requires Sep !in p
    requires -1 <= d < |p| && (d >= 0 ==> p[d] == ExtSep)
    requires forall j :: d < j < |p| ==> p[j] != ExtSep
    ensures d > 0 && p[0] != ExtSep ==> SplitExt(p) == (p[..d], p[d..])
    ensures d >= 0 && !AllDots(p, 0, d) ==> SplitExt(p) == (p[..d], p[d..])
    ensures AllDots(p, 0, d + 1) ==> SplitExt(p) == (p, [])
  {
    assert RFind(p, Sep) == -1;
    assert RFind(p, ExtSep) == d;
  }

  lemma LemmaSplitExtReport()
    ensures SplitExt("report.csv") == ("report", ".csv")
  {
    var root, ext := "report", ".csv";
    assert Sep !in root && Sep !in ext;
    assert forall j :: 1 <= j < |ext| ==> ext[j] != ExtSep;
    var p := root + ext;
    assert p == "report.csv";
    assert Sep !in p;
    LemmaSplitExtName(p, |root|);
    assert p[..|root|] == root && p[|root|..] == ext;
  }

  lemma LemmaSplitExtReadme()
    ensures SplitExt("README") == ("README", "")
  {
    LemmaSplitExtName("README", -1);
  }

  lemma LemmaSplitExtBashrc()
    ensures SplitExt(".bashrc") == (".bashrc", "")
  {
    LemmaSplitExtName(".bashrc", 0);
  }

  lemma LemmaSplitExtDots()
    ensures SplitExt("..x") == ("..x", "")
  {
    LemmaSplitExtName("..x", 1);
  }
}

=== FILE: streams.dfy ===
/** The uploaded file as a readable byte stream, and the chunk sequence that the upload
    loop sees when it reads it `chunk_size` bytes at a time. */
module Streams {

  newtype byte = b: int | 0 <= b < 256

  /** What `read(n)` on a buffered stream returns from the unread bytes `s`: all of
      them when `n` is negative, otherwise the first `n` of them, or fewer at the end. */
  function Take(s: seq<byte>, n: int): (r: seq<byte>)
    ensures |r| <= |s| && r == s[..|r|]
    ensures n < 0 ==> r == s
    ensures n >= 0 ==> |r| == if n < |s| then n else |s|
  {
    if n < 0 || n >= |s| then s else s[..n]
  }

  /** The non-empty chunks that successive `read(n)` calls return from `s` before the
      first empty read. */
  function ReadsOf(s: seq<byte>, n: int): (r: seq<seq<byte>>)
    ensures forall i :: 0 <= i < |r| ==> r[i] != []
    decreases |s|
  {
    if n == 0 || s == [] then []
    else
      var chunk := Take(s, n);
      [chunk] + ReadsOf(s[|chunk|..], n)
  }

  /** The bytes of a chunk sequence written one after another. */
  function Concat(chunks: seq<seq<byte>>): seq<byte> {
    if chunks == [] then [] else chunks[0] + Concat(chunks[1..])
  }

  lemma {:induction false} LemmaConcatAppend(chunks: seq<seq<byte>>, c: seq<byte>)
    ensures Concat(chunks + [c]) == Concat(chunks) + c
    decreases |chunks|
  {
    if chunks == [] {
      assert [] + [c] == [c];
    } else {
      assert (chunks + [c])[1..] == chunks[1..] + [c];
      LemmaConcatAppend(chunks[1..], c);
    }
  }

  /** Reading with any non-zero chunk size delivers every byte, in order. */
  lemma {:induction false} LemmaReadsConcat(s: seq<byte>, n: int)
    requires n != 0
    ensures Concat(ReadsOf(s, n)) == s
    decreases |s|
  {
    if s != [] {
      var chunk := Take(s, n);
      var r := ReadsOf(s, n);
      assert r[1..] == ReadsOf(s[|chunk|..], n);
      LemmaReadsConcat(s[|chunk|..], n);
      assert s == chunk + s[|chunk|..];
    }
  }

  /** One more read after a non-empty chunk: the chunks read so far, the chunks still to
      come and the running totals all advance together. */
  lemma LemmaReadsAdvance(all: seq<seq<byte>>, done: seq<seq<byte>>, chunk: seq<byte>, rest: seq<byte>, n: int)
    requires chunk != [] && chunk == Take(chunk + rest, n)
    requires all == done + ReadsOf(chunk + rest, n)
    ensures all == (done + [chunk]) + ReadsOf(rest, n)
    ensures Concat(done + [chunk]) == Concat(done) + chunk
    ensures RunningTotals(done + [chunk]) == RunningTotals(done) + [|Concat(done) + chunk|]
  {
    LemmaReadsStep(chunk, rest, n);
    LemmaConcatAppend(done, chunk);
    assert (done + [chunk])[..|done|] == done;
  }

  /** A non-empty read `chunk` from `chunk + rest` is the first of the chunks read. */
  lemma LemmaReadsStep(chunk: seq<byte>, rest: seq<byte>, n: int)
    requires chunk != [] && chunk == Take(chunk + rest, n)
    ensures ReadsOf(chunk + rest, n) == [chunk] + ReadsOf(rest, n)
  {
    assert (chunk + rest)[|chunk|..] == rest;
  }

  /** An empty read means no chunk is left to read. */
  lemma LemmaReadsDone(rest: seq<byte>, n: int)
    requires Take(rest, n) == []
    ensures ReadsOf(rest, n) == []
  {
  }

  /** A multiple of a positive `n` smaller than `n` in size is zero times `n`. */
  lemma LemmaSmallMultiple(k: int, n: int)
    requires n > 0 && -n < k * n < n
    ensures k == 0
  {
  }

  /** Adding `n` to a non-negative dividend adds one to its quotient by `n`. */
  lemma LemmaDivShift(y: int, n: int)
    requires n > 0 && y >= 0
    ensures (y + n) / n == y / n + 1
  {
    var d, m := y / n, y % n;
    var d', m' := (y + n) / n, (y + n) % n;
    assert (d' - d - 1) * n == d' * n - d * n - n;
    LemmaSmallMultiple(d' - d - 1, n);
  }

  /** Every dividend from `n` to `2 * n - 1` has quotient 1. */
  lemma LemmaDivUnit(y: int, n: int)
    requires n > 0 && n <= y < 2 * n
    ensures y / n == 1
  {
    var d, m := y / n, y % n;
    assert (d - 1) * n == d * n - n;
    LemmaSmallMultiple(d - 1, n);
  }

  /** With a positive chunk size the number of non-empty reads is ceil(|s| / n). */
  lemma {:induction false} LemmaReadsCount(s: seq<byte>, n: int)
    requires n > 0
    ensures |ReadsOf(s, n)| == (|s| + n - 1) / n
    decreases |s|
  {
    if s != [] {
      var chunk := Take(s, n);
      LemmaReadsCount(s[|chunk|..], n);
      if |s| <= n {
        assert |s[|chunk|..]| == 0;
        LemmaDivUnit(|s| + n - 1, n);
      } else {
        var m := |s| - n;
        assert |s[|chunk|..]| == m;
        LemmaDivShift(|s| - 1, n);
      }
    }
  }

  /** Each chunk holds at most `n` bytes and every chunk but the last is full. */
  lemma {:induction false} LemmaReadsSizes(s: seq<byte>, n: int)
    requires n > 0
    ensures forall i :: 0 <= i < |ReadsOf(s, n)| ==> |ReadsOf(s, n)[i]| <= n
    ensures forall i :: 0 <= i < |ReadsOf(s, n)| - 1 ==> |ReadsOf(s, n)[i]| == n
    decreases |s|
  {
    if s != [] {
      var chunk := Take(s, n);
      var r := ReadsOf(s, n);
      LemmaReadsSizes(s[|chunk|..], n);
      assert r[1..] == ReadsOf(s[|chunk|..], n);
      assert |r| > 1 ==> |chunk| == n;
      forall i | 0 <= i < |r| ensures |r[i]| <= n && (i < |r| - 1 ==> |r[i]| == n) {
        if i > 0 {
          assert r[i] == r[1..][i - 1];
        }
      }
    }
  }

  /** A negative size reads everything at once; a zero size reads nothing. */
  lemma LemmaReadsUnbounded(s: seq<byte>, n: int)
    requires n <= 0
    ensures ReadsOf(s, n) == if n == 0 || s == [] then [] else [s]
  {
    if n < 0 && s != [] {
      assert s[|s|..] == [];
    }
  }

  /** The progress values a poller can observe while the chunks are written: 0, then
      the running byte total after each chunk. */
  function RunningTotals(chunks: seq<seq<byte>>): seq<nat>
    decreases |chunks|
  {
    if chunks == [] then [0]
    else RunningTotals(chunks[..|chunks| - 1]) + [|Concat(chunks)|]
  }

  /** The observed progress starts at 0, ends at the number of bytes written, grows by
      exactly the size of each chunk and so never decreases. */
  lemma {:induction false} LemmaRunningTotals(chunks: seq<seq<byte>>)
    ensures |RunningTotals(chunks)| == |chunks| + 1
    ensures RunningTotals(chunks)[0] == 0
    ensures RunningTotals(chunks)[|chunks|] == |Concat(chunks)|
    ensures forall i :: 0 <= i < |chunks| ==>
      RunningTotals(chunks)[i + 1] == RunningTotals(chunks)[i] + |chunks[i]|
    ensures forall i, j :: 0 <= i <= j <= |chunks| ==> RunningTotals(chunks)[i] <= RunningTotals(chunks)[j]
    decreases |chunks|
  {
    if chunks != [] {
      var init := chunks[..|chunks| - 1];
      var last := chunks[|chunks| - 1];
      LemmaRunningTotals(init);
      assert chunks == init + [last];
      LemmaConcatAppend(init, last);
      var t := RunningTotals(chunks);
      assert t == RunningTotals(init) + [|Concat(chunks)|];
      forall i | 0 <= i < |chunks| ensures t[i + 1] == t[i] + |chunks[i]| {
        if i < |chunks| - 1 {
          assert chunks[i] == init[i];
        }
      }
      forall i, j | 0 <= i <= j <= |chunks| ensures t[i] <= t[j] {
        if j == |chunks| && i < j {
          assert t[i] <= t[|chunks| - 1];
        }
      }
    }
  }

  /** `k` copies of `x`. */
  function Repeat(x: int, k: nat): (r: seq<int>)
  {
    if k == 0 then [] else Repeat(x, k - 1) + [x]
  }

  /** One more request of size `x` extends the log of `k` such requests. */
  lemma LemmaRepeatStep(log: seq<int>, x: int, k: nat)
    ensures (log + Repeat(x, k)) + [x] == log + Repeat(x, k + 1)
  {
  }

  /** A readable byte stream; `rest` holds the bytes not yet read and `requests` records
      the size asked for by each `read`. */
  class InputStream {
    var rest: seq<byte>
    ghost var requests: seq<int>

    constructor (data: seq<byte>)
      ensures rest == data && requests == []
    {
      rest := data;
      requests := [];
    }

    /** `read(n)`: consumes and returns `Take(rest, n)`. */
    method Read(n: int) returns (chunk: seq<byte>)
      modifies this
      ensures chunk == Take(old(rest), n)
      ensures old(rest) == chunk + rest
      ensures requests == old(requests) + [n]
    {
      chunk := Take(rest, n);
      rest := rest[|chunk|..];
      requests := requests + [n];
    }
  }
}
